=== FILE: README.md ===
# Snake grid simulation in Dafny

This project models the simulation core of a pygame snake game, `snake.py`. The snake moves on a
600 x 400 pixel board made of 10-pixel cells. A cell is stored by the pixel coordinates of its
top-left corner. The model covers:

- the four directions and the reversal guard on the direction keys;
- wall generation for a level: the whole border, and from level 5 on a budget of random obstacles
  placed by rejection sampling, at most 300 attempts, outside the safe zone `Rect(40, 40, 140, 140)`;
- food spawning on a free interior cell, with a weight from 1 to 3;
- the per-tick step: skipped while paused or while the leaderboard is shown; otherwise a collision
  with a wall or any body cell (the tail included) ends the game; eating grows the snake, adds the
  weight to the score, spawns new food, and when the score becomes a multiple of 3 raises the level,
  adds 2 to the speed and regenerates the walls;
- the frame loop (all events of a frame, then one tick) and a whole session from the saved progress
  to the saved outcome.

Randomness is an input. Each call of a generator gets a sequence of candidate draws, `Pick(col, row)`.
The index types `Col` (1..58) and `Row` (1..38) are exactly the ranges the `randint` calls can return.
Food also gets one `Weight` draw (1..3). Wall generation reads the i-th candidate on its i-th attempt.
Food generation takes the first free candidate. When no candidate is free it returns `None`; the
source would keep drawing forever in that case.

Modules, one per component:

- `Grid` (grid.dfy): board constants, cells, the lattice, `colliderect`, the safe zone, directions.
- `Walls` (walls.dfy): `generate_walls`, as recursive functions and as the source's loops.
- `Food` (food.dfy): `generate_food`.
- `Snake` (snake.py's list operations, snake.dfy): insert the head, pop the tail, no repeated cells.
- `Game` (game.dfy): the game state, its initial value, the per-tick `Step` and the direction rule.
- `Session` (session.dfy): key handling, the frame loop as written and as corrected, whole sessions.
- `Wrappers` (wrappers.dfy): `Option`.

Three points about the code that shape the model:

- `Game.Init` starts from the saved score, not from 0: snake.py:176 loads both the score and the
  level from the best saved row.
- The walls are a list in which each of the four corners appears twice (snake.py:137-142). The model
  keeps that list; only membership matters to the game.
- The event loop can save the outcome twice and can turn the snake straight back within one frame
  (see "## Findings").

## Model

| member | source | states |
|---|---|---|
| Grid.PickCell | snake.py:154-155 | a candidate draw denotes an interior lattice cell with a one-cell margin, and its indices are the drawn column and row |
| Grid.PickCovers | snake.py:168-169 | every interior lattice cell is the cell of exactly the candidate made of its indices, so the draws reach the whole interior |
| Grid.SafeZoneCells | snake.py:149-157 | on the lattice, `safe_zone.colliderect` with a 10 x 10 cell holds exactly for column and row indices 4 to 17 |
| Grid.Opposite | snake.py:198-205 | the reverse direction has the negated offset vector and differs from the direction |
| Grid.MoveInjective | snake.py:219 | two steps from the same head reach the same cell only in the same direction |
| Grid.Move | snake.py:219 | the new head differs from the old one, and from a head on the lattice both of its coordinates stay multiples of 10 (it may leave the board; the wall test catches that) |
| Walls.SideWallsCells | snake.py:137-139 | the first border loop adds exactly the left and right lattice cells of the rows it has covered |
| Walls.TopBottomWallsCells | snake.py:140-142 | the second border loop adds exactly the top and bottom lattice cells of the columns it has covered |
| Walls.Border | snake.py:136-142 | the border list has 200 entries, two for each of the 40 rows and two for each of the 60 columns |
| Walls.BorderCells | snake.py:136-142 | a cell is in the border list if and only if it is a lattice cell on an edge of the board |
| Walls.BorderListsCornersTwice | snake.py:137-142 | each of the four corners is appended twice, once by each border loop; for (0, 0) these are positions 0 and 80 of the 200-entry list |
| Walls.Budget | snake.py:145-147 | the obstacle budget is a multiple of 3, at most 30, and is zero exactly below level 5 |
| Walls.BudgetMonotone | snake.py:146-147 | a higher level never has a smaller obstacle budget |
| Walls.PlaceObstacles | snake.py:151-160 | the sampling loop keeps `placed <= budget`, `attempts <= 300` and never places more than it attempts; it stops with the budget met or 300 attempts made; it only appends cells, and each appended cell is an interior cell clear of the safe zone and not already in the list |
| Walls.ObstaclesFromDraws | snake.py:153-160 | every obstacle the sampling loop appends is the cell of one of the picks it attempted |
| Walls.ClearDrawsBecomeWalls | snake.py:153-160 | every attempted pick clear of the safe zone ends up in the walls: it is appended by its own attempt or was already a wall |
| Walls.GenerateWalls | snake.py:133-162 | the walls start with the border; below level 5 they are exactly the border; from level 5 at most `min(3 * (level / 5), 30)` obstacles follow, with `placed <= attempts <= 300`, each clear of the safe zone and new; every obstacle is the cell of an attempted pick, and every attempted pick clear of the safe zone is a wall |
| Walls.BorderAlwaysWalls | snake.py:136-142 | every border cell is a wall at every level, whatever the obstacle draws |
| Walls.WallIsBorderOrObstacle | snake.py:136-160 | every wall is either a border cell or an obstacle clear of the safe zone, never both, so obstacles are off the border; below level 5 the walls are exactly the border cells |
| Walls.ObstaclesDistinct | snake.py:157-158 | an obstacle differs from every wall listed before it, so obstacles are pairwise distinct and off the border |
| Walls.BorderLoop | snake.py:136-142 | the two border loops build exactly the border list |
| Walls.GenerateWallsLoop | snake.py:133-162 | the source's loops compute the same walls and counters as `GenerateWalls` |
| Food.GenerateFood | snake.py:166-171 | the food is an interior cell that is neither in the snake nor in the walls, with the drawn weight; it is the first free candidate; there is no food exactly when no candidate is free |
| Food.GenerateFoodIgnoresLaterDraws | snake.py:167-171 | draws after the first free candidate are never consulted |
| Snake.Advance | snake.py:226-236 | the new body has the new head in front, followed by the old body minus its tail cell, or the whole old body when the snake grew |
| Snake.AdvanceKeepsNoDup | snake.py:221-236 | if the new head is not on the body, a body without repeated cells keeps that property |
| Snake.AdvanceCells | snake.py:226-236 | after a move every body cell is the new head or an old body cell; a growing move keeps all old cells |
| Snake.TailCellIsFreeAfterPop | snake.py:221-224 | stepping onto the tail cell would leave a valid body after the pop, so the source's collision test is stricter than necessary |
| Game.Init | snake.py:176-184 | a new game has the three-cell starting body heading right, the saved score and level, speed `10 + (level - 1)`, the walls of the saved level, which miss the body, and as food the first free food draw with the drawn weight; there is no game exactly when no food draw is free |
| Game.StartSnakeClearOfWalls | snake.py:149-182 | the starting body lies off the border and inside the safe zone, so no wall of any level covers it |
| Game.Crashes | snake.py:221 | the tick ends the game exactly when the new head is a wall or a body cell, so moving onto the tail cell always ends it |
| Game.Step | snake.py:211-236 | frozen ticks change nothing; the game ends exactly on a collision with a wall or any body cell, the tail included, and then nothing changes; food runs out exactly when the snake eats and no food draw is free against the grown body and the old walls; otherwise the new head, never a body cell, goes in front of the old body and the body keeps or grows its length by one |
| Game.StepMoves | snake.py:219-236 | a tick that neither collides nor eats keeps the length, food, score, level, speed and walls |
| Game.StepEats | snake.py:226-234 | a tick that eats grows the body by one and adds the food's weight to the score; the new food is the first food draw free against the grown body and the old walls, with the drawn weight; level, speed and walls change exactly when the new score is a multiple of 3, to level + 1, speed + 2 and the walls of the new level |
| Game.Feed | snake.py:228-234 | the eating branch never ends the game; it runs out of food exactly when no draw is free; it scores the weight, spawns as food the first draw free against the grown body and the old walls, and levels up exactly on a multiple of 3 |
| Game.StepKeepsNoDup | snake.py:219-236 | a tick that does not end the game never shortens the body and never repeats a cell in it |
| Game.AlignedNoReversal | snake.py:198-219 | when the pending direction is not the reverse of the last move, the next head is never the neck |
| Game.StepKeepsAligned | snake.py:219-236 | a tick keeps the head one step from the neck in the last direction moved |
| Game.Turn | snake.py:198-205 | a direction key never sets the reverse of the current direction; it keeps the current direction exactly when the key asks for it or for its reverse, and otherwise takes the key's direction |
| Session.PressKey | snake.py:197-209 | a key press never touches body, food, walls, score, level or speed; `P` and only `P` toggles pause, `L` and only `L` toggles the leaderboard; a direction key sets its direction exactly when it is not the reverse of the current one, and nothing else changes the direction |
| Session.PressKeyGuarded | snake.py:198-205 | the same, with the reversal checked against the direction last moved in: a direction key sets its direction exactly when it is not the reverse of the last move |
| Session.PauseTwice | snake.py:206-207 | pressing `P` twice restores the game exactly |
| Session.Stop | snake.py:194-196 | quitting clears `running`, keeps the game, and appends exactly one save, the current score and level, to the saves made before |
| Session.EventsAsWritten | snake.py:193-209 | handling a frame's events leaves the world unchanged and only ever adds saves; while still running nothing was saved |
| Session.FrameAsWritten | snake.py:190-236 | a frame of the source's loop never drops a save |
| Session.EventsAgree | snake.py:193-209 | without a quit, and with at most one direction key pressed while the pending direction is the last move, the source's event loop and the corrected one give the same state, still running |
| Session.FrameAgrees | snake.py:190-236 | under the same conditions one frame of the source's loop equals one frame of the corrected loop |
| Session.Events | snake.py:193-209 | the corrected event loop leaves the world unchanged; a running loop stops exactly when the frame holds a quit, and then it has saved the current outcome once; the pending direction stays off the reverse of the last move |
| Session.Frame | snake.py:190-236 | a running frame keeps running exactly when it holds no quit and its tick neither crashes nor runs out of food, and then the game is the tick's result; otherwise it stops with the game as the events left it, having saved once the score and level it was given; it keeps the body free of repeated cells, never shortens it, and keeps the head aligned with the last move |
| Session.Run | snake.py:190-236 | in the corrected loop, over any number of frames, a running game has saved nothing and a stopped game has saved exactly its own outcome once; a loop still running has seen no quit in any frame; the body keeps its invariants; a stopped game stays stopped |
| Session.Play | snake.py:174-236 | a whole session of the corrected loop saves at most once, and saves exactly when it has stopped, with the final score and level; a session still running has seen no quit; the body never repeats a cell and the next head is never the neck |
| Session.ReversalInOneFrame | snake.py:198-205 | from the start position, Up then Left in one frame kills the snake in the source's loop; the corrected loop turns up and keeps running |
| Session.QuitDuringCrashSavesTwice | snake.py:194-224 | a quit in the frame in which the snake hits the border saves the outcome twice in the source's loop, once in the corrected loop |

## Findings

| source | as written | input that shows it | evidently intended | confidence | as-written member | corrected member |
|---|---|---|---|---|---|---|
| snake.py:198-205 | each direction key is checked against `snake_dir`, which an earlier key of the same frame, or of a paused frame, may already have changed | moving right from the start, the keys Up and Left in one frame set the direction to Left, and the next tick runs into the neck at (90, 100) | a key that would reverse the snake's last move is ignored, so the snake never turns straight back | medium, not executed | Session.ReversalInOneFrame | Session.Frame |
| snake.py:194-224 | a quit event saves progress and clears `running`, but the rest of the frame still runs; if that tick collides, progress is saved a second time | the head at (580, 100) moving right toward the border cell (590, 100), with a quit event in the same frame: two identical rows are saved | the outcome is saved exactly once, when the game ends | high, not executed | Session.QuitDuringCrashSavesTwice | Session.Frame |

The corrected loop is `Session.Events` with `Session.PressKeyGuarded` inside `Session.Frame`. It checks
a direction key against the direction of the last step taken, kept in the field `lastMoved`, and it
ends the frame at the first quit. `Session.Run` and `Session.Play` are built on it, and their contracts
state the intended properties. `Session.FrameAsWritten` keeps the source's behaviour for comparison.

## Left out

- Rendering, fonts, the food colour, `pygame.display` and the frame clock `clock.tick(speed)` (snake.py:19-20, 46-80, 238-253). They are presentation and timing. `speed` is tracked but drives nothing.
- Username entry `get_username` (snake.py:83-103). It is interactive keyboard I/O.
- The SQLite functions `setup_database`, `get_or_create_user`, `get_user_progress`, `save_progress` and the leaderboard query (snake.py:23-44, 105-131). They are external database calls. The loaded progress is the `saved` parameter of `Game.Init`. Each save is recorded as an `Outcome` in `Loop.saves`.
- The distribution of `random.randint`. Draws are inputs, and uniformity cannot be stated about them.
- phonebook.py. It is PostgreSQL access, console input and CSV reading, with no game logic.
- Board validation. The board size, cell size and safe zone are fixed constants in the code, so there is no configuration error to model.
- `Grid.Collide` covers rectangles of positive size, the only ones the game builds. pygame's treatment of empty rectangles is not modelled.
- `snake_dir` is modelled as the enumeration `Dir` rather than a raw vector. The code only ever stores the four unit vectors, and `Grid.Opposite` states the vector negation the code compares against.
- The score test `score % 3 == 0` uses Python's floored `%` and Dafny uses Euclidean `%`. Both agree on divisibility, so the test is the same for every integer score.
- `Walls.GenerateWalls` and `Game.Step` require at least 300 wall draws (`Session.Supplied` for every frame). The source's random source never runs out.
- `Game.Step` returns `Exhausted`, and `Session.Frame` / `Session.Run` return `None`, when food must spawn but no supplied food draw is free. The source would keep drawing forever.
- `Game.Game.lastMoved` is bookkeeping the source does not have. Only the corrected reversal guard and the `Game.Aligned` invariant read it.
- Session.FrameAsWritten: its own contract states only that saves are never dropped. `Session.FrameAgrees` ties it to the corrected `Session.Frame` on every frame without a quit and with at most one direction key, and the two finding lemmas show where the two differ.
- Session.EventsAsWritten: does not count how many saves the events add (one per quit event).

=== FILE: food.dfy ===
/**
 Food spawning (`generate_food` in snake.py): draw interior cells until one is neither
 part of the snake nor a wall, then draw a weight from 1 to 3. The source loops until it
 succeeds; here the draws are a finite input, so the result is the first free candidate,
 or `None` when no candidate in the input is free.
 */
module Food {

  import opened Grid
  import opened Wrappers

  /** A food weight, as drawn by `randint(1, 3)`; it is also the score the food is worth. */
  type Weight = w: int | 1 <= w <= 3 witness 1

  datatype Food = Food(cell: Cell, weight: Weight)

  /** A cell food may be put on: not covered by the snake and not a wall. */
  predicate Free(c: Cell, snake: seq<Cell>, walls: seq<Cell>)
  {
    c !in snake && c !in walls
  }

  /** Candidate `i` is the first free one among `picks`. */
  predicate FirstFree(snake: seq<Cell>, walls: seq<Cell>, picks: seq<Pick>, i: int)
  {
    && 0 <= i < |picks|
    && Free(PickCell(picks[i]), snake, walls)
    && forall j :: 0 <= j < i ==> !Free(PickCell(picks[j]), snake, walls)
  }

  /**
   `generate_food()` against the given snake and walls: the first free candidate among
   `picks`, paired with the weight drawn after it.
   */
  function GenerateFood(snake: seq<Cell>, walls: seq<Cell>, picks: seq<Pick>, weight: Weight): (r: Option<Food>)
    ensures r.Some? ==> Interior(r.value.cell) && Free(r.value.cell, snake, walls) && r.value.weight == weight
    ensures r.None? <==> forall i :: 0 <= i < |picks| ==> !Free(PickCell(picks[i]), snake, walls)
    ensures r.Some? ==> exists i :: FirstFree(snake, walls, picks, i) && r.value.cell == PickCell(picks[i])
    decreases |picks|
  {
    if |picks| == 0 then None
    else
      var c := PickCell(picks[0]);
      if Free(c, snake, walls) then
        assert FirstFree(snake, walls, picks, 0);
        Some(Food(c, weight))
      else
        var r := GenerateFood(snake, walls, picks[1..], weight);
        assert forall i :: 1 <= i < |picks| ==> picks[i] == picks[1..][i - 1];
        if r.Some? then
          var i :| FirstFree(snake, walls, picks[1..], i) && r.value.cell == PickCell(picks[1..][i]);
          assert FirstFree(snake, walls, picks, i + 1);
          r
        else
          r
  }

  /** Once candidate `i` is free, draws after the spawned food are never consulted. */
  lemma {:induction false} GenerateFoodIgnoresLaterDraws(snake: seq<Cell>, walls: seq<Cell>, picks: seq<Pick>, more: seq<Pick>, weight: Weight, i: nat)
    requires i < |picks| && Free(PickCell(picks[i]), snake, walls)
    ensures GenerateFood(snake, walls, picks + more, weight) == GenerateFood(snake, walls, picks, weight)
    decreases |picks|
  {
    if !Free(PickCell(picks[0]), snake, walls) {
      assert (picks + more)[1..] == picks[1..] + more;
      assert picks[1..][i - 1] == picks[i];
      GenerateFoodIgnoresLaterDraws(snake, walls, picks[1..], more, weight, i - 1);
    }
  }
}

=== FILE: game.dfy ===
/**
 The game state and the per-tick step of the main loop of snake.py: compute the new head,
 end the game on a collision with a wall or the body, otherwise move, and on eating grow,
 score the food's weight, spawn new food and, every time the score becomes a multiple of
 three, go up a level (faster, with the walls of the new level).
 */
module Game {

  import opened Grid
  import opened Wrappers
  import opened Walls
  import opened Food
  import opened Snake

  /** Speed at level 1; each level above it adds one. */
  const BaseSpeed: int := 10
  /** The level goes up whenever the score becomes a multiple of this. */
  const LevelUpEvery: int := 3
  /** Speed added on every level-up. */
  const SpeedStep: int := 2

  /** What a finished game hands to the persistence layer. */
  datatype Outcome = Outcome(score: int, level: int)

  /**
   Everything one game owns. `lastMoved` is the direction of the last step actually
   taken; the source does not store it, it only serves the reversal guard of the session.
   */
  datatype Game = Game(
    snake: seq<Cell>,
    dir: Dir,
    lastMoved: Dir,
    food: Food,
    walls: seq<Cell>,
    score: int,
    level: int,
    speed: int,
    paused: bool,
    showBoard: bool)

  function OutcomeOf(g: Game): Outcome
  {
    Outcome(g.score, g.level)
  }

  /** The body every game starts with: three cells in a row, heading right. */
  const StartSnake: seq<Cell> := [Cell(100, 100), Cell(90, 100), Cell(80, 100)]

  /**
   The head is one step from the neck in the direction last moved, and the pending
   direction does not point straight back at the neck.
   */
  predicate Aligned(g: Game)
  {
    && |g.snake| >= 2
    && g.snake[0] == Move(g.snake[1], g.lastMoved)
    && g.dir != Opposite(g.lastMoved)
  }

  /**
   A new game from the saved progress: the starting body heading right, the walls of the
   saved level, then the first food against that body and those walls.
   */
  function Init(saved: Outcome, wallPicks: seq<Pick>, foodPicks: seq<Pick>, weight: Weight): (r: Option<Game>)
    requires saved.level >= ObstacleLevel ==> |wallPicks| >= MaxAttempts
    ensures r.Some? ==> var g := r.value;
      && g.snake == StartSnake && NoDup(g.snake) && Aligned(g)
      && OutcomeOf(g) == saved && g.speed == BaseSpeed + (saved.level - 1)
      && !g.paused && !g.showBoard
      && (forall c :: c in g.snake ==> c !in g.walls)
      && Interior(g.food.cell) && Free(g.food.cell, g.snake, g.walls)
    ensures r.Some? ==> var g := r.value;
      && g.dir == Right && g.walls == LevelWalls(saved.level, wallPicks) && g.food.weight == weight
      && exists i :: FirstFree(StartSnake, g.walls, foodPicks, i) && g.food.cell == PickCell(foodPicks[i])
    ensures r.None? <==> forall i :: 0 <= i < |foodPicks| ==>
      !Free(PickCell(foodPicks[i]), StartSnake, GenerateWalls(saved.level, wallPicks).walls)
  {
    var walls := GenerateWalls(saved.level, wallPicks).walls;
    StartSnakeClearOfWalls(saved.level, wallPicks);
    match GenerateFood(StartSnake, walls, foodPicks, weight)
    case None => None
    case Some(food) =>
      Some(Game(StartSnake, Right, Right, food, walls, saved.score, saved.level,
                BaseSpeed + (saved.level - 1), false, false))
  }

  /** The starting body lies inside the safe zone and off the border, so no wall of any level covers it. */
  lemma StartSnakeClearOfWalls(level: int, picks: seq<Pick>)
    requires level >= ObstacleLevel ==> |picks| >= MaxAttempts
    ensures forall c :: c in StartSnake ==> c !in GenerateWalls(level, picks).walls
  {
    forall c | c in StartSnake
      ensures c !in GenerateWalls(level, picks).walls
    {
      if c in GenerateWalls(level, picks).walls {
        WallIsBorderOrObstacle(level, picks, c);
        SafeZoneCells(c);
        assert false;
      }
    }
  }

  /** A score that triggers a level-up: a multiple of three. */
  predicate LevelUpScore(score: int)
  {
    score % LevelUpEvery == 0
  }

  /** The walls of a level, without the loop's counters. */
  function LevelWalls(level: int, picks: seq<Pick>): seq<Cell>
    requires level >= ObstacleLevel ==> |picks| >= MaxAttempts
  {
    GenerateWalls(level, picks).walls
  }

  /** The simulation is suspended while paused or while the leaderboard is shown. */
  predicate Frozen(g: Game)
  {
    g.showBoard || g.paused
  }

  function NextHead(g: Game): Cell
    requires |g.snake| >= 1
  {
    Move(g.snake[0], g.dir)
  }

  /** The next head hits a wall or any body cell, the tail included. */
  function Crashes(g: Game): (b: bool)
    requires |g.snake| >= 1
    ensures b <==> !Free(NextHead(g), g.snake, g.walls)
    ensures NextHead(g) == g.snake[|g.snake| - 1] ==> b
  {
    NextHead(g) in g.walls || NextHead(g) in g.snake
  }

  predicate Eats(g: Game)
    requires |g.snake| >= 1
  {
    NextHead(g) == g.food.cell
  }

  /** The result of one tick. `Exhausted`: food had to be spawned and no food draw was free. */
  datatype Tick = Continue(game: Game) | Over(game: Game) | Exhausted

  /**
   One pass of the main loop after the events: skipped while frozen; otherwise move,
   and end the game on a collision. Food is spawned against the grown body and the OLD
   walls, before the walls of a new level are generated, and the new walls are not
   checked against the body.
   */
  function Step(g: Game, foodPicks: seq<Pick>, weight: Weight, wallPicks: seq<Pick>): (r: Tick)
    requires |g.snake| >= 1 && (g.level + 1 >= ObstacleLevel ==> |wallPicks| >= MaxAttempts)
    ensures Frozen(g) ==> r == Continue(g)
    ensures r.Over? <==> !Frozen(g) && Crashes(g)
    ensures r.Over? ==> r.game == g
    ensures r.Exhausted? <==> !Frozen(g) && !Crashes(g) && Eats(g) && forall i :: 0 <= i < |foodPicks| ==>
      !Free(PickCell(foodPicks[i]), [NextHead(g)] + g.snake, g.walls)
    ensures r.Continue? && !Frozen(g) ==> var h := r.game;
      && |g.snake| <= |h.snake| <= |g.snake| + 1
      && h.snake[0] == NextHead(g) && h.snake[0] !in g.snake && h.snake[1..] == g.snake[..|h.snake| - 1]
      && h.dir == g.dir && h.lastMoved == g.dir && h.paused == g.paused && h.showBoard == g.showBoard
  {
    if Frozen(g) then Continue(g)
    else if Crashes(g) then Over(g)
    else
      var head := NextHead(g);
      var moved := g.(snake := Advance(g.snake, head, Eats(g)), lastMoved := g.dir);
      if Eats(g) then Feed(moved, foodPicks, weight, wallPicks)
      else Continue(moved)
  }

  /**
   The eating branch of a tick, on the game whose body has already grown: score the
   food's weight, spawn food against that body and the current walls, then level up
   when the score is a multiple of three.
   */
  function Feed(moved: Game, foodPicks: seq<Pick>, weight: Weight, wallPicks: seq<Pick>): (r: Tick)
    requires moved.level + 1 >= ObstacleLevel ==> |wallPicks| >= MaxAttempts
    ensures !r.Over?
    ensures r.Exhausted? <==> forall i :: 0 <= i < |foodPicks| ==> !Free(PickCell(foodPicks[i]), moved.snake, moved.walls)
    ensures r.Continue? ==> var h := r.game;
      && h.snake == moved.snake && h.dir == moved.dir && h.lastMoved == moved.lastMoved
      && h.paused == moved.paused && h.showBoard == moved.showBoard
      && h.score == moved.score + moved.food.weight
      && (if LevelUpScore(h.score)
          then h.level == moved.level + 1 && h.speed == moved.speed + SpeedStep && h.walls == LevelWalls(moved.level + 1, wallPicks)
          else h.level == moved.level && h.speed == moved.speed && h.walls == moved.walls)
      && Interior(h.food.cell) && Free(h.food.cell, h.snake, moved.walls) && h.food.weight == weight
      && exists i :: FirstFree(moved.snake, moved.walls, foodPicks, i) && h.food.cell == PickCell(foodPicks[i])
  {
    var score := moved.score + moved.food.weight;
    match GenerateFood(moved.snake, moved.walls, foodPicks, weight)
    case None => Exhausted
    case Some(food) =>
      var fed := moved.(score := score, food := food);
      if LevelUpScore(score) then
        Continue(fed.(level := moved.level + 1, speed := moved.speed + SpeedStep,
                      walls := LevelWalls(moved.level + 1, wallPicks)))
      else Continue(fed)
  }

  /** A tick that neither collides nor eats only moves the body: food, score, level, speed and walls stay. */
  lemma StepMoves(g: Game, foodPicks: seq<Pick>, weight: Weight, wallPicks: seq<Pick>)
    requires |g.snake| >= 1 && (g.level + 1 >= ObstacleLevel ==> |wallPicks| >= MaxAttempts)
    requires !Frozen(g) && !Crashes(g) && !Eats(g)
    ensures Step(g, foodPicks, weight, wallPicks).Continue?
    ensures var h := Step(g, foodPicks, weight, wallPicks).game;
      && |h.snake| == |g.snake| && h.food == g.food
      && h.score == g.score && h.level == g.level && h.speed == g.speed && h.walls == g.walls
  {
  }

  /**
   A tick that eats and does not run out of food grows the body by one, adds the food's weight to the score and puts new
   food on a free interior cell; when the new score is a multiple of three the level and
   speed go up and the walls become those of the new level, otherwise they stay.
   */
  lemma StepEats(g: Game, foodPicks: seq<Pick>, weight: Weight, wallPicks: seq<Pick>)
    requires |g.snake| >= 1 && (g.level + 1 >= ObstacleLevel ==> |wallPicks| >= MaxAttempts)
    requires !Frozen(g) && Eats(g)
    ensures Step(g, foodPicks, weight, wallPicks).Continue? ==> var h := Step(g, foodPicks, weight, wallPicks).game;
      && |h.snake| == |g.snake| + 1
      && h.score == g.score + g.food.weight
      && Interior(h.food.cell) && Free(h.food.cell, h.snake, g.walls) && h.food.weight == weight
      && (exists i :: FirstFree(h.snake, g.walls, foodPicks, i) && h.food.cell == PickCell(foodPicks[i]))
      && (if LevelUpScore(h.score)
          then h.level == g.level + 1 && h.speed == g.speed + SpeedStep && h.walls == LevelWalls(g.level + 1, wallPicks)
          else h.level == g.level && h.speed == g.speed && h.walls == g.walls)
  {
  }

  /** A tick that does not end the game never shortens the body and never repeats a cell in it. */
  lemma StepKeepsNoDup(g: Game, foodPicks: seq<Pick>, weight: Weight, wallPicks: seq<Pick>)
    requires |g.snake| >= 1 && (g.level + 1 >= ObstacleLevel ==> |wallPicks| >= MaxAttempts) && NoDup(g.snake)
    requires Step(g, foodPicks, weight, wallPicks).Continue?
    ensures |Step(g, foodPicks, weight, wallPicks).game.snake| >= |g.snake|
    ensures NoDup(Step(g, foodPicks, weight, wallPicks).game.snake)
  {
    if !Frozen(g) {
      AdvanceKeepsNoDup(g.snake, NextHead(g), Eats(g));
    }
  }

  /** With an aligned state the next head is never the neck: the snake cannot turn back on itself. */
  lemma AlignedNoReversal(g: Game)
    requires Aligned(g)
    ensures NextHead(g) != g.snake[1]
  {
    MoveBack(g.snake[1], g.lastMoved);
    MoveInjective(g.snake[0], g.dir, Opposite(g.lastMoved));
  }

  /** A tick keeps the head one step from the neck in the direction last moved. */
  lemma StepKeepsAligned(g: Game, foodPicks: seq<Pick>, weight: Weight, wallPicks: seq<Pick>)
    requires (g.level + 1 >= ObstacleLevel ==> |wallPicks| >= MaxAttempts) && Aligned(g)
    requires Step(g, foodPicks, weight, wallPicks).Continue?
    ensures Aligned(Step(g, foodPicks, weight, wallPicks).game)
  {
    if !Frozen(g) {
      var h := Step(g, foodPicks, weight, wallPicks).game;
      assert h.snake[1] == g.snake[0];
    }
  }

  /**
   The direction a direction key leaves behind (snake.py's four `elif` branches): the
   key's direction, unless it is the exact reverse of the current one.
   */
  function Turn(current: Dir, want: Dir): (d: Dir)
    ensures d != Opposite(current)
    ensures d == want || d == current
    ensures d == current <==> want == current || want == Opposite(current)
  {
    OppositeInvolutive(want);
    if current == Opposite(want) then current else want
  }
}

=== FILE: grid.dfy ===
/**
 The board of the snake game: a 600 x 400 pixel field cut into 10-pixel cells.
 Cells are addressed by the pixel coordinates of their top-left corner, exactly as
 the game stores them, so every cell on the board has both coordinates divisible by
 the cell size. The module also holds the four directions, pygame's rectangle
 overlap test and the safe zone around the spawn point.
 */
module Grid {

  const Width: int := 600
  const Height: int := 400
  const CellSize: int := 10

  /** Number of cell columns and rows on the board. */
  const Cols: int := Width / CellSize
  const Rows: int := Height / CellSize

  /** A cell, by the pixel coordinates of its top-left corner. */
  datatype Cell = Cell(x: int, y: int)

  /** Column and row indices a random draw `randint(1, Cols - 2)` / `randint(1, Rows - 2)` can yield. */
  type Col = k: int | 1 <= k <= Cols - 2 witness 1
  type Row = k: int | 1 <= k <= Rows - 2 witness 1

  /** One random candidate cell: the two draws made for its column and its row. */
  datatype Pick = Pick(col: Col, row: Row)

  /** A cell on the board lattice (both coordinates multiples of the cell size, inside the field). */
  predicate OnBoard(c: Cell)
  {
    && c.x % CellSize == 0 && c.y % CellSize == 0
    && 0 <= c.x < Width && 0 <= c.y < Height
  }

  /** A lattice cell that keeps a one-cell margin from every edge of the board. */
  predicate Interior(c: Cell)
  {
    && OnBoard(c)
    && CellSize <= c.x <= Width - 2 * CellSize
    && CellSize <= c.y <= Height - 2 * CellSize
  }

  /** A lattice cell on one of the four edges of the board. */
  predicate OnEdge(c: Cell)
  {
    && OnBoard(c)
    && (c.x == 0 || c.x == Width - CellSize || c.y == 0 || c.y == Height - CellSize)
  }

  /** The cell a candidate draw denotes: the drawn indices scaled to pixels. */
  function PickCell(p: Pick): (c: Cell)
    ensures Interior(c)
    ensures c.x / CellSize == p.col && c.y / CellSize == p.row
  {
    Cell(p.col * CellSize, p.row * CellSize)
  }

  /** Every interior cell is drawn by exactly one candidate, so the draws cover the interior. */
  lemma PickCovers(c: Cell)
    requires Interior(c)
    ensures 1 <= c.x / CellSize <= Cols - 2 && 1 <= c.y / CellSize <= Rows - 2
    ensures PickCell(Pick(c.x / CellSize, c.y / CellSize)) == c
  {
  }

  /** The interior and the edge of the board do not meet. */
  lemma InteriorIsNotEdge(c: Cell)
    requires Interior(c)
    ensures !OnEdge(c)
  {
  }

  /** A pygame rectangle: left, top, width and height in pixels. */
  datatype Rect = Rect(left: int, top: int, width: int, height: int)

  /**
   pygame's `colliderect` for rectangles of positive size: the two boxes overlap in
   an area, touching edges do not count.
   */
  predicate Collide(a: Rect, b: Rect)
  {
    && a.left < b.left + b.width && b.left < a.left + a.width
    && a.top < b.top + b.height && b.top < a.top + a.height
  }

  /** The rectangle a cell covers on screen. */
  function CellRect(c: Cell): Rect
  {
    Rect(c.x, c.y, CellSize, CellSize)
  }

  /** The starting area no obstacle may cover. */
  const SafeZone: Rect := Rect(40, 40, 140, 140)

  /** On the lattice the safe zone blocks exactly the cells with indices 4 to 17 in both directions. */
  lemma SafeZoneCells(c: Cell)
    requires OnBoard(c)
    ensures Collide(SafeZone, CellRect(c)) <==> 4 <= c.x / CellSize <= 17 && 4 <= c.y / CellSize <= 17
  {
  }

  /** The four directions the snake can travel in. */
  datatype Dir = Up | Down | Left | Right

  /** The pixel offset one step in a direction adds to a cell. */
  function Delta(d: Dir): Cell
  {
    match d
    case Up => Cell(0, -CellSize)
    case Down => Cell(0, CellSize)
    case Left => Cell(-CellSize, 0)
    case Right => Cell(CellSize, 0)
  }

  /** The exact reverse of a direction: its offset is the negated offset. */
  function Opposite(d: Dir): (o: Dir)
    ensures Delta(o) == Cell(-Delta(d).x, -Delta(d).y)
    ensures o != d
  {
    match d
    case Up => Down
    case Down => Up
    case Left => Right
    case Right => Left
  }

  /** Reversing twice gives the direction back. */
  lemma OppositeInvolutive(d: Dir)
    ensures Opposite(Opposite(d)) == d
  {
  }

  /** The cell one step away from `c` in direction `d`. */
  function Move(c: Cell, d: Dir): (n: Cell)
    ensures n != c
    ensures OnBoard(c) ==> n.x % CellSize == 0 && n.y % CellSize == 0
  {
    Cell(c.x + Delta(d).x, c.y + Delta(d).y)
  }

  /** Stepping back in the opposite direction undoes a step. */
  lemma MoveBack(c: Cell, d: Dir)
    ensures Move(Move(c, d), Opposite(d)) == c
  {
  }

  /** Two steps from the same cell meet only in the same direction. */
  lemma MoveInjective(c: Cell, d: Dir, e: Dir)
    ensures Move(c, d) == Move(c, e) <==> d == e
  {
  }
}

=== FILE: session.dfy ===
/**
 The main loop of snake.py, frame by frame: first every event of the frame (quit, the
 four direction keys, `P` for pause, `L` for the leaderboard), then one tick of the game.
 The loop runs while `running` holds; the list `saves` records every call that hands the
 outcome (score, level) to the persistence layer.

 Two event loops are modelled: `FrameAsWritten` follows the source line by line, and
 `Frame` is the corrected loop `Run` and `Play` use. They differ in two places: the
 corrected loop guards a direction key against the direction the snake last moved in
 (not the direction an earlier key of the same frame set), and it ends the frame at
 the first quit event (instead of still running the tick and possibly saving again).
 */
module Session {

  import opened Grid
  import opened Wrappers
  import opened Walls
  import opened Food
  import opened Snake
  import opened Game

  /** The keys the game reacts to; every other key is `OtherKey`. */
  datatype Key = Arrow(d: Dir) | PauseKey | BoardKey | OtherKey

  datatype Event = Quit | Press(key: Key)

  /** One frame's worth of input: its events and the random draws its tick may consume. */
  datatype FrameInput = FrameInput(events: seq<Event>, foodPicks: seq<Pick>, weight: Weight, wallPicks: seq<Pick>)

  /** The loop's state: the game, the `running` flag and the outcomes saved so far. */
  datatype Loop = Loop(game: Game, running: bool, saves: seq<Outcome>)

  /** The game part a key press cannot touch: body, food, walls, score, level and speed. */
  predicate SameWorld(g: Game, h: Game)
  {
    && h.snake == g.snake && h.lastMoved == g.lastMoved && h.food == g.food && h.walls == g.walls
    && h.score == g.score && h.level == g.level && h.speed == g.speed
  }

  /** A key press as the source handles it: direction keys are checked against the current direction. */
  function PressKey(g: Game, k: Key): (h: Game)
    ensures SameWorld(g, h)
    ensures h.dir == g.dir || h.dir != Opposite(g.dir)
    ensures h.paused != g.paused <==> k == PauseKey
    ensures h.showBoard != g.showBoard <==> k == BoardKey
    ensures h.dir != g.dir ==> k.Arrow? && h.dir == k.d
    ensures k.Arrow? && k.d != Opposite(g.dir) ==> h.dir == k.d
    ensures k.Arrow? && k.d == Opposite(g.dir) ==> h.dir == g.dir
  {
    match k
    case Arrow(d) => g.(dir := Turn(g.dir, d))
    case PauseKey => g.(paused := !g.paused)
    case BoardKey => g.(showBoard := !g.showBoard)
    case OtherKey => g
  }

  /** A key press with the corrected guard: a direction key is checked against the direction last moved in. */
  function PressKeyGuarded(g: Game, k: Key): (h: Game)
    ensures SameWorld(g, h)
    ensures h.dir == g.dir || h.dir != Opposite(g.lastMoved)
    ensures h.paused != g.paused <==> k == PauseKey
    ensures h.showBoard != g.showBoard <==> k == BoardKey
    ensures h.dir != g.dir ==> k.Arrow? && h.dir == k.d
    ensures k.Arrow? && k.d != Opposite(g.lastMoved) ==> h.dir == k.d
    ensures k.Arrow? && k.d == Opposite(g.lastMoved) ==> h.dir == g.dir
  {
    match k
    case Arrow(d) => if d == Opposite(g.lastMoved) then g else g.(dir := d)
    case PauseKey => g.(paused := !g.paused)
    case BoardKey => g.(showBoard := !g.showBoard)
    case OtherKey => g
  }

  /** Pressing `P` twice gives back the very same game. */
  lemma PauseTwice(g: Game)
    ensures PressKey(PressKey(g, PauseKey), PauseKey) == g
    ensures PressKeyGuarded(PressKeyGuarded(g, PauseKey), PauseKey) == g
  {
  }

  /** Quitting: save the current outcome and clear `running`. */
  function Stop(s: Loop): (r: Loop)
    ensures !r.running && r.game == s.game
    ensures |r.saves| == |s.saves| + 1 && r.saves[..|s.saves|] == s.saves
    ensures r.saves[|s.saves|] == Outcome(s.game.score, s.game.level)
  {
    s.(running := false, saves := s.saves + [OutcomeOf(s.game)])
  }

  /** The source's event loop: every event is handled, a quit included, whatever came before it. */
  function EventsAsWritten(s: Loop, events: seq<Event>): (r: Loop)
    ensures SameWorld(s.game, r.game) && |r.saves| >= |s.saves|
    ensures r.running ==> s.running && r.saves == s.saves
    decreases |events|
  {
    if |events| == 0 then s
    else
      var s' := match events[0]
        case Quit => Stop(s)
        case Press(k) => s.(game := PressKey(s.game, k));
      EventsAsWritten(s', events[1..])
  }

  /** One pass of the source's `while running` loop: all events, then the tick. */
  function FrameAsWritten(s: Loop, input: FrameInput): (r: Option<Loop>)
    requires |s.game.snake| >= 1 && |input.wallPicks| >= MaxAttempts
    ensures r.Some? ==> |r.value.saves| >= |s.saves|
  {
    var s1 := EventsAsWritten(s, input.events);
    match Step(s1.game, input.foodPicks, input.weight, input.wallPicks)
    case Continue(g) => Some(s1.(game := g))
    case Over(g) => Some(Stop(s1.(game := g)))
    case Exhausted => None
  }

  /** The corrected event loop: keys use the corrected guard, and the first quit ends the frame. */
  function Events(s: Loop, events: seq<Event>): (r: Loop)
    ensures SameWorld(s.game, r.game)
    ensures r.running ==> s.running && r.saves == s.saves
    ensures s.running && !r.running ==> r.saves == s.saves + [OutcomeOf(r.game)]
    ensures !s.running ==> r == s
    ensures s.game.dir != Opposite(s.game.lastMoved) ==> r.game.dir != Opposite(r.game.lastMoved)
    ensures s.running ==> (r.running <==> NoQuit(events))
    decreases |events|
  {
    if |events| == 0 || !s.running then s
    else
      assert forall i :: 1 <= i < |events| ==> events[1..][i - 1] == events[i];
      match events[0]
      case Quit => Stop(s)
      case Press(k) => Events(s.(game := PressKeyGuarded(s.game, k)), events[1..])
  }

  /**
   One frame of the corrected loop. A frame that starts running either keeps running
   without saving, or stops having saved exactly once the outcome of the game it stops with.
   */
  function Frame(s: Loop, input: FrameInput): (r: Option<Loop>)
    requires |s.game.snake| >= 1 && |input.wallPicks| >= MaxAttempts
    ensures r.Some? && s.running && r.value.running ==> r.value.saves == s.saves
    ensures r.Some? && s.running && !r.value.running ==> r.value.saves == s.saves + [OutcomeOf(r.value.game)]
    ensures r.Some? ==> |r.value.game.snake| >= |s.game.snake|
    ensures r.Some? && NoDup(s.game.snake) ==> NoDup(r.value.game.snake)
    ensures r.Some? && Aligned(s.game) ==> Aligned(r.value.game)
    ensures s.running && r.Some? ==> (r.value.running <==>
      NoQuit(input.events) && Step(Events(s, input.events).game, input.foodPicks, input.weight, input.wallPicks).Continue?)
    ensures s.running && r.Some? && r.value.running ==>
      r.value.game == Step(Events(s, input.events).game, input.foodPicks, input.weight, input.wallPicks).game
    ensures s.running && r.Some? && !r.value.running ==> r.value.game == Events(s, input.events).game
    ensures s.running && r.Some? && !r.value.running ==> r.value.saves == s.saves + [OutcomeOf(s.game)]
    ensures s.running && r.None? ==>
      NoQuit(input.events) && Step(Events(s, input.events).game, input.foodPicks, input.weight, input.wallPicks).Exhausted?
  {
    var s1 := Events(s, input.events);
    if !s1.running then Some(s1)
    else
      StepKeepsNoDupIfContinue(s1.game, input);
      StepKeepsAlignedIfContinue(s1.game, input);
      match Step(s1.game, input.foodPicks, input.weight, input.wallPicks)
      case Continue(g) => Some(s1.(game := g))
      case Over(g) => Some(Stop(s1.(game := g)))
      case Exhausted => None
  }

  lemma StepKeepsNoDupIfContinue(g: Game, input: FrameInput)
    requires |g.snake| >= 1 && |input.wallPicks| >= MaxAttempts
    ensures Step(g, input.foodPicks, input.weight, input.wallPicks).Continue? && NoDup(g.snake) ==>
      NoDup(Step(g, input.foodPicks, input.weight, input.wallPicks).game.snake)
  {
    if Step(g, input.foodPicks, input.weight, input.wallPicks).Continue? && NoDup(g.snake) {
      StepKeepsNoDup(g, input.foodPicks, input.weight, input.wallPicks);
    }
  }

  lemma StepKeepsAlignedIfContinue(g: Game, input: FrameInput)
    requires |g.snake| >= 1 && |input.wallPicks| >= MaxAttempts
    ensures Step(g, input.foodPicks, input.weight, input.wallPicks).Continue? && Aligned(g) ==>
      Aligned(Step(g, input.foodPicks, input.weight, input.wallPicks).game)
  {
    if Step(g, input.foodPicks, input.weight, input.wallPicks).Continue? && Aligned(g) {
      StepKeepsAligned(g, input.foodPicks, input.weight, input.wallPicks);
    }
  }

  /** Every frame supplies enough wall draws for a level-up. */
  predicate Supplied(frames: seq<FrameInput>)
  {
    forall i :: 0 <= i < |frames| ==> |frames[i].wallPicks| >= MaxAttempts
  }

  /**
   The loop is consistent when a running game has saved nothing and a stopped game has
   saved exactly its own outcome, once.
   */
  predicate Consistent(s: Loop)
  {
    if s.running then s.saves == [] else s.saves == [OutcomeOf(s.game)]
  }

  /** `while running`: frames until the game stops or the input ends; `None` when a frame's food draws ran out. */
  function Run(s: Loop, frames: seq<FrameInput>): (r: Option<Loop>)
    requires |s.game.snake| >= 1 && Supplied(frames)
    ensures r.Some? && Consistent(s) ==> Consistent(r.value)
    ensures r.Some? && NoDup(s.game.snake) ==> NoDup(r.value.game.snake)
    ensures r.Some? && Aligned(s.game) ==> Aligned(r.value.game)
    ensures r.Some? ==> |r.value.game.snake| >= |s.game.snake|
    ensures !s.running ==> r == Some(s)
    ensures r.Some? && r.value.running ==> forall i :: 0 <= i < |frames| ==> NoQuit(frames[i].events)
    decreases |frames|
  {
    if |frames| == 0 || !s.running then Some(s)
    else
      match Frame(s, frames[0])
      case None => None
      case Some(s') =>
        assert Supplied(frames[1..]) by {
          forall i | 0 <= i < |frames[1..]|
            ensures |frames[1..][i].wallPicks| >= MaxAttempts
          {
            assert frames[1..][i] == frames[i + 1];
          }
        }
        assert forall i :: 1 <= i < |frames| ==> frames[1..][i - 1] == frames[i];
        Run(s', frames[1..])
  }

  /**
   A whole session: set the game up from the saved progress, then run the frames. When
   it stops, the outcome has been saved exactly once and it is the final score and level;
   while it runs nothing has been saved; the body never holds a cell twice and never
   turns straight back onto its neck.
   */
  function Play(saved: Outcome, wallPicks: seq<Pick>, foodPicks: seq<Pick>, weight: Weight, frames: seq<FrameInput>): (r: Option<Loop>)
    requires (saved.level >= ObstacleLevel ==> |wallPicks| >= MaxAttempts) && Supplied(frames)
    ensures r.Some? ==> |r.value.saves| <= 1 && (|r.value.saves| == 1 <==> !r.value.running)
    ensures r.Some? && !r.value.running ==> r.value.saves[0] == OutcomeOf(r.value.game)
    ensures r.Some? ==> |r.value.game.snake| >= |StartSnake| && NoDup(r.value.game.snake)
    ensures r.Some? ==> NextHead(r.value.game) != r.value.game.snake[1]
    ensures r.Some? && r.value.running ==> forall i :: 0 <= i < |frames| ==> NoQuit(frames[i].events)
  {
    match Init(saved, wallPicks, foodPicks, weight)
    case None => None
    case Some(g) =>
      var r := Run(Loop(g, true, []), frames);
      if r.Some? then AlignedNoReversal(r.value.game); r else r
  }

  /** The event is a press of a direction key. */
  predicate IsArrow(e: Event)
  {
    e.Press? && e.key.Arrow?
  }

  /** No event of the frame is a quit. */
  predicate NoQuit(events: seq<Event>)
  {
    forall i :: 0 <= i < |events| ==> events[i].Press?
  }

  /** At most one event of the frame is a direction key. */
  predicate AtMostOneArrow(events: seq<Event>)
  {
    forall i, j :: 0 <= i < j < |events| ==> !(IsArrow(events[i]) && IsArrow(events[j]))
  }

  predicate HasArrow(events: seq<Event>)
  {
    exists i :: 0 <= i < |events| && IsArrow(events[i])
  }

  /**
   Without a quit, and with at most one direction key pressed while the pending
   direction is the one last moved in, the source's event loop and the corrected one
   handle a frame's events identically, and the loop keeps running.
   */
  lemma {:induction false} EventsAgree(s: Loop, events: seq<Event>)
    requires s.running && NoQuit(events) && AtMostOneArrow(events)
    requires HasArrow(events) ==> s.game.dir == s.game.lastMoved
    ensures EventsAsWritten(s, events) == Events(s, events)
    ensures Events(s, events).running
    decreases |events|
  {
    if |events| > 0 {
      var rest := events[1..];
      assert forall i :: 0 <= i < |rest| ==> rest[i] == events[i + 1];
      var k := events[0].key;
      var g := s.game;
      if k.Arrow? {
        OppositeInvolutive(k.d);
        OppositeInvolutive(g.dir);
        assert PressKey(g, k) == PressKeyGuarded(g, k);
      } else {
        assert PressKey(g, k) == PressKeyGuarded(g, k);
        assert HasArrow(rest) ==> HasArrow(events) by {
          if HasArrow(rest) {
            var i :| 0 <= i < |rest| && IsArrow(rest[i]);
            assert IsArrow(events[i + 1]);
          }
        }
      }
      EventsAgree(s.(game := PressKey(g, k)), rest);
    }
  }

  /**
   Under the same conditions a whole frame of the source's loop equals a frame of the
   corrected loop: the two findings need a quit, or a second direction key, or a key
   pressed after the pending direction moved away from the last move.
   */
  lemma FrameAgrees(s: Loop, input: FrameInput)
    requires |s.game.snake| >= 1 && |input.wallPicks| >= MaxAttempts
    requires s.running && NoQuit(input.events) && AtMostOneArrow(input.events)
    requires HasArrow(input.events) ==> s.game.dir == s.game.lastMoved
    ensures FrameAsWritten(s, input) == Frame(s, input)
  {
    EventsAgree(s, input.events);
  }

  /** Wall draws for the concrete frames below. */
  function SomePicks(): (p: seq<Pick>)
    ensures |p| == MaxAttempts
  {
    seq(MaxAttempts, _ => Pick(1, 1))
  }

  /** A game at level 1 with score 0 whose walls are the border. */
  function SampleGame(snake: seq<Cell>): Game
  {
    Game(snake, Right, Right, Food(Cell(300, 300), 1), Border(), 0, 1, BaseSpeed, false, false)
  }

  /**
   Moving right from the start, the keys Up and Left pressed in one frame turn the
   snake around: the source's loop ends the game in that very tick by running into the
   neck, while the corrected loop turns up and keeps running.
   */
  lemma ReversalInOneFrame()
    ensures var s := Loop(SampleGame(StartSnake), true, []);
      var input := FrameInput([Press(Arrow(Up)), Press(Arrow(Left))], [], 1, SomePicks());
      && FrameAsWritten(s, input) == Some(Loop(SampleGame(StartSnake).(dir := Left), false, [Outcome(0, 1)]))
      && Frame(s, input).Some? && Frame(s, input).value.running
      && Frame(s, input).value.game.snake[0] == Cell(100, 90)
  {
    var g := SampleGame(StartSnake);
    var s := Loop(g, true, []);
    var input := FrameInput([Press(Arrow(Up)), Press(Arrow(Left))], [], 1, SomePicks());
    var left := g.(dir := Left);
    assert EventsAsWritten(s, input.events) == s.(game := left);
    assert NextHead(left) == Cell(90, 100) && Crashes(left);
    assert Step(left, [], 1, SomePicks()) == Over(left);
    assert Step(EventsAsWritten(s, input.events).game, input.foodPicks, input.weight, input.wallPicks) == Over(left);
    assert Stop(s.(game := left)) == Loop(left, false, [Outcome(0, 1)]);
    var up := g.(dir := Up);
    assert Events(s, input.events) == s.(game := up);
    BorderCells(Cell(100, 90));
    assert NextHead(up) == Cell(100, 90) && !Crashes(up) && !Eats(up);
    assert Step(up, [], 1, SomePicks()).Continue?;
  }

  /**
   A quit in the frame in which the snake hits the border saves the outcome twice in
   the source's loop (once for the quit, once for the crash); the corrected loop saves once.
   */
  lemma QuitDuringCrashSavesTwice()
    ensures var g := SampleGame([Cell(580, 100), Cell(570, 100), Cell(560, 100)]);
      var input := FrameInput([Quit], [], 1, SomePicks());
      && FrameAsWritten(Loop(g, true, []), input) == Some(Loop(g, false, [Outcome(0, 1), Outcome(0, 1)]))
      && Frame(Loop(g, true, []), input) == Some(Loop(g, false, [Outcome(0, 1)]))
  {
    var g := SampleGame([Cell(580, 100), Cell(570, 100), Cell(560, 100)]);
    BorderCells(Cell(590, 100));
    assert NextHead(g) == Cell(590, 100) && Crashes(g);
    assert Step(g, [], 1, SomePicks()) == Over(g);
    var s1 := EventsAsWritten(Loop(g, true, []), [Quit]);
    assert s1 == Loop(g, false, [Outcome(0, 1)]);
    assert Stop(s1.(game := g)) == Loop(g, false, [Outcome(0, 1), Outcome(0, 1)]);
    assert Events(Loop(g, true, []), [Quit]) == Loop(g, false, [Outcome(0, 1)]);
  }
}

=== FILE: snake.dfy ===
/**
 The snake's body: a list of cells, head first. It changes only by putting a new head in
 front and, unless the snake grows, dropping the last cell.
 */
module Snake {

  import opened Grid

  /** No cell occurs twice in the body. */
  predicate NoDup(s: seq<Cell>)
  {
    forall i, j :: 0 <= i < j < |s| ==> s[i] != s[j]
  }

  /** `snake.insert(0, new_head)`, followed by `snake.pop()` unless the snake grew. */
  function Advance(s: seq<Cell>, head: Cell, grew: bool): (r: seq<Cell>)
    requires |s| >= 1
    ensures |r| == if grew then |s| + 1 else |s|
    ensures r[0] == head && r[1..] == s[..|r| - 1]
  {
    if grew then [head] + s else [head] + s[..|s| - 1]
  }

  /** A move whose new head is not on the body keeps the body free of repeated cells. */
  lemma AdvanceKeepsNoDup(s: seq<Cell>, head: Cell, grew: bool)
    requires |s| >= 1 && NoDup(s) && head !in s
    ensures NoDup(Advance(s, head, grew))
  {
    var r := Advance(s, head, grew);
    forall i, j | 0 <= i < j < |r|
      ensures r[i] != r[j]
    {
      assert r[j] == s[j - 1];
      if i > 0 {
        assert r[i] == s[i - 1];
      }
    }
  }

  /** Every cell of the body after a move is the new head or a cell the body had before. */
  lemma AdvanceCells(s: seq<Cell>, head: Cell, grew: bool, c: Cell)
    requires |s| >= 1
    ensures c in Advance(s, head, grew) ==> c == head || c in s
    ensures grew ==> (c in Advance(s, head, grew) <==> c == head || c in s)
  {
    var r := Advance(s, head, grew);
    if c in r && c != head {
      var k :| 0 <= k < |r| && r[k] == c;
      assert r[k] == s[k - 1];
    }
  }

  /**
   Moving onto the current tail cell would leave a body without repeated cells once the
   tail is dropped, so treating it as a collision is stricter than needed.
   */
  lemma TailCellIsFreeAfterPop(s: seq<Cell>)
    requires |s| >= 2 && NoDup(s)
    ensures NoDup(Advance(s, s[|s| - 1], false))
  {
    var t := s[..|s| - 1];
    assert NoDup(t);
    assert s[|s| - 1] !in t by {
      forall k | 0 <= k < |t|
        ensures t[k] != s[|s| - 1]
      {
        assert t[k] == s[k];
      }
    }
    var r := Advance(s, s[|s| - 1], false);
    assert r == [s[|s| - 1]] + t;
    forall i, j | 0 <= i < j < |r|
      ensures r[i] != r[j]
    {
      assert r[j] == t[j - 1];
      if i > 0 {
        assert r[i] == t[i - 1];
      }
    }
  }
}

=== FILE: walls.dfy ===
/**
 Wall generation for a level (`generate_walls` in snake.py). The walls are a list of
 cells: the whole border of the board, appended column by column and row by row (so the
 four corners appear twice), followed from level 5 on by random obstacles placed by
 rejection sampling, at most 300 attempts. The random draws are an input: the i-th
 attempt uses `picks[i]`.
 */
module Walls {

  import opened Grid

  /** Attempts the obstacle loop makes at most. */
  const MaxAttempts: nat := 300

  /** First level that has obstacles. */
  const ObstacleLevel: int := 5

  /** Most obstacles any level gets. */
  const MaxObstacles: nat := 30

  /** The result of one wall generation: the wall list and the loop's two counters. */
  datatype WallGen = WallGen(walls: seq<Cell>, placed: nat, attempts: nat)

  /** The left and right border cells of the first `n` rows, in the order the source appends them. */
  function SideWalls(n: nat): (r: seq<Cell>)
    ensures |r| == 2 * n
  {
    seq(2 * n, k => Cell(if k % 2 == 0 then 0 else Width - CellSize, (k / 2) * CellSize))
  }

  /** The top and bottom border cells of the first `n` columns, in the order the source appends them. */
  function TopBottomWalls(n: nat): (r: seq<Cell>)
    ensures |r| == 2 * n
  {
    seq(2 * n, k => Cell((k / 2) * CellSize, if k % 2 == 0 then 0 else Height - CellSize))
  }

  /** The permanent border: both side columns, then the top and bottom rows. */
  function Border(): (r: seq<Cell>)
    ensures |r| == 200
  {
    SideWalls(Rows) + TopBottomWalls(Cols)
  }

  /** The side walls of `n` rows are exactly the left and right lattice cells above row `n`. */
  lemma SideWallsCells(n: nat, c: Cell)
    ensures c in SideWalls(n) <==>
      (c.x == 0 || c.x == Width - CellSize) && c.y % CellSize == 0 && 0 <= c.y < n * CellSize
  {
    var r := SideWalls(n);
    if c in r {
      var k :| 0 <= k < |r| && r[k] == c;
      assert c.y == (k / 2) * CellSize;
    }
    if (c.x == 0 || c.x == Width - CellSize) && c.y % CellSize == 0 && 0 <= c.y < n * CellSize {
      var k := 2 * (c.y / CellSize) + (if c.x == 0 then 0 else 1);
      assert k / 2 == c.y / CellSize;
      assert r[k] == c;
    }
  }

  /** The top and bottom walls of `n` columns are exactly the top and bottom lattice cells left of column `n`. */
  lemma TopBottomWallsCells(n: nat, c: Cell)
    ensures c in TopBottomWalls(n) <==>
      (c.y == 0 || c.y == Height - CellSize) && c.x % CellSize == 0 && 0 <= c.x < n * CellSize
  {
    var r := TopBottomWalls(n);
    if c in r {
      var k :| 0 <= k < |r| && r[k] == c;
      assert c.x == (k / 2) * CellSize;
    }
    if (c.y == 0 || c.y == Height - CellSize) && c.x % CellSize == 0 && 0 <= c.x < n * CellSize {
      var k := 2 * (c.x / CellSize) + (if c.y == 0 then 0 else 1);
      assert k / 2 == c.x / CellSize;
      assert r[k] == c;
    }
  }

  /** One more row of side walls appends its left and right cell. */
  lemma SideWallsSnoc(n: nat)
    ensures SideWalls(n + 1) == SideWalls(n) + [Cell(0, n * CellSize), Cell(Width - CellSize, n * CellSize)]
  {
    var a, b := SideWalls(n + 1), SideWalls(n) + [Cell(0, n * CellSize), Cell(Width - CellSize, n * CellSize)];
    assert forall k :: 0 <= k < 2 * n ==> a[k] == b[k];
    assert (2 * n) / 2 == n && (2 * n + 1) / 2 == n;
    assert a[2 * n] == b[2 * n] && a[2 * n + 1] == b[2 * n + 1];
  }

  /** One more column of top and bottom walls appends its top and bottom cell. */
  lemma TopBottomWallsSnoc(n: nat)
    ensures TopBottomWalls(n + 1) == TopBottomWalls(n) + [Cell(n * CellSize, 0), Cell(n * CellSize, Height - CellSize)]
  {
    var a, b := TopBottomWalls(n + 1), TopBottomWalls(n) + [Cell(n * CellSize, 0), Cell(n * CellSize, Height - CellSize)];
    assert forall k :: 0 <= k < 2 * n ==> a[k] == b[k];
    assert (2 * n) / 2 == n && (2 * n + 1) / 2 == n;
    assert a[2 * n] == b[2 * n] && a[2 * n + 1] == b[2 * n + 1];
  }

  /** A cell is in the border list exactly when it lies on the edge of the board. */
  lemma BorderCells(c: Cell)
    ensures c in Border() <==> OnEdge(c)
  {
    SideWallsCells(Rows, c);
    TopBottomWallsCells(Cols, c);
  }

  /** Each of the four corners is listed twice, once by each of the two border loops. */
  lemma BorderListsCornersTwice()
    ensures Border()[0] == Border()[2 * Rows] == Cell(0, 0)
    ensures Border()[1] == Border()[2 * Rows + 2 * (Cols - 1)] == Cell(Width - CellSize, 0)
    ensures Border()[2 * (Rows - 1)] == Border()[2 * Rows + 1] == Cell(0, Height - CellSize)
    ensures Border()[2 * Rows - 1] == Border()[2 * Rows + 2 * Cols - 1] == Cell(Width - CellSize, Height - CellSize)
  {
  }

  /** How many obstacles a level asks for: three per five levels, never more than thirty. */
  function Budget(level: int): (b: nat)
    ensures b <= MaxObstacles && b % 3 == 0
    ensures level < ObstacleLevel <==> b == 0
  {
    if level >= ObstacleLevel then
      var blocks := 3 * (level / ObstacleLevel);
      if blocks < MaxObstacles as int then blocks else MaxObstacles
    else 0
  }

  /** A higher level never asks for fewer obstacles. */
  lemma BudgetMonotone(l1: int, l2: int)
    requires l1 <= l2
    ensures Budget(l1) <= Budget(l2)
  {
    if l1 >= ObstacleLevel {
      assert l1 / ObstacleLevel <= l2 / ObstacleLevel;
    }
  }

  /** A cell an obstacle may occupy: on the interior lattice and clear of the safe zone. */
  predicate Obstacle(c: Cell)
  {
    Interior(c) && !Collide(SafeZone, CellRect(c))
  }

  /** The acceptance test of one attempt: clear of the safe zone and not yet a wall. */
  predicate Accepts(walls: seq<Cell>, c: Cell)
  {
    !Collide(SafeZone, CellRect(c)) && c !in walls
  }

  /**
   The obstacle loop from the state (`walls`, `placed`, `attempts`) on: while fewer than
   `budget` obstacles are placed and fewer than 300 attempts made, try the next pick.
   */
  function PlaceObstacles(walls: seq<Cell>, picks: seq<Pick>, budget: nat, placed: nat, attempts: nat): (r: WallGen)
    requires placed <= budget && attempts <= MaxAttempts <= |picks|
    ensures placed <= r.placed <= budget && attempts <= r.attempts <= MaxAttempts
    ensures r.placed - placed <= r.attempts - attempts
    ensures r.placed == budget || r.attempts == MaxAttempts
    ensures |r.walls| == |walls| + (r.placed - placed)
    ensures forall i :: 0 <= i < |walls| ==> r.walls[i] == walls[i]
    ensures forall i :: |walls| <= i < |r.walls| ==> Obstacle(r.walls[i])
    ensures forall j, i :: 0 <= j < i && |walls| <= i < |r.walls| ==> r.walls[j] != r.walls[i]
    decreases MaxAttempts - attempts
  {
    if placed < budget && attempts < MaxAttempts then
      var c := PickCell(picks[attempts]);
      if Accepts(walls, c) then
        PlaceObstacles(walls + [c], picks, budget, placed + 1, attempts + 1)
      else
        PlaceObstacles(walls, picks, budget, placed, attempts + 1)
    else
      WallGen(walls, placed, attempts)
  }

  /** The obstacles come from the draws: every appended cell is the cell of an attempted pick. */
  lemma {:induction false} ObstaclesFromDraws(walls: seq<Cell>, picks: seq<Pick>, budget: nat, placed: nat, attempts: nat)
    requires placed <= budget && attempts <= MaxAttempts <= |picks|
    ensures var r := PlaceObstacles(walls, picks, budget, placed, attempts);
      forall i :: |walls| <= i < |r.walls| ==> exists k :: attempts <= k < r.attempts && r.walls[i] == PickCell(picks[k])
    decreases MaxAttempts - attempts
  {
    if placed < budget && attempts < MaxAttempts {
      var c := PickCell(picks[attempts]);
      if Accepts(walls, c) {
        ObstaclesFromDraws(walls + [c], picks, budget, placed + 1, attempts + 1);
        var r := PlaceObstacles(walls, picks, budget, placed, attempts);
        assert r == PlaceObstacles(walls + [c], picks, budget, placed + 1, attempts + 1);
        forall i | |walls| <= i < |r.walls|
          ensures exists k :: attempts <= k < r.attempts && r.walls[i] == PickCell(picks[k])
        {
          if i == |walls| {
            assert r.walls[..|walls| + 1] == walls + [c];
            assert r.walls[i] == PickCell(picks[attempts]);
          }
        }
      } else {
        ObstaclesFromDraws(walls, picks, budget, placed, attempts + 1);
        assert PlaceObstacles(walls, picks, budget, placed, attempts) == PlaceObstacles(walls, picks, budget, placed, attempts + 1);
      }
    }
  }

  /**
   No usable draw is lost: every attempted pick clear of the safe zone ends up in the
   walls, appended by its own attempt or already there.
   */
  lemma {:induction false} ClearDrawsBecomeWalls(walls: seq<Cell>, picks: seq<Pick>, budget: nat, placed: nat, attempts: nat)
    requires placed <= budget && attempts <= MaxAttempts <= |picks|
    ensures var r := PlaceObstacles(walls, picks, budget, placed, attempts);
      forall k :: attempts <= k < r.attempts && !Collide(SafeZone, CellRect(PickCell(picks[k]))) ==> PickCell(picks[k]) in r.walls
    decreases MaxAttempts - attempts
  {
    if placed < budget && attempts < MaxAttempts {
      var c := PickCell(picks[attempts]);
      var r := PlaceObstacles(walls, picks, budget, placed, attempts);
      if Accepts(walls, c) {
        ClearDrawsBecomeWalls(walls + [c], picks, budget, placed + 1, attempts + 1);
        assert r == PlaceObstacles(walls + [c], picks, budget, placed + 1, attempts + 1);
        assert r.walls[..|walls| + 1] == walls + [c];
        assert r.walls[|walls|] == c;
      } else {
        ClearDrawsBecomeWalls(walls, picks, budget, placed, attempts + 1);
        assert !Collide(SafeZone, CellRect(c)) ==> c in r.walls[..|walls|];
      }
    }
  }

  /** `generate_walls(level)`: the border, plus obstacles from level 5 on. */
  function GenerateWalls(level: int, picks: seq<Pick>): (r: WallGen)
    requires level >= ObstacleLevel ==> |picks| >= MaxAttempts
    ensures |r.walls| == |Border()| + r.placed && r.walls[..|Border()|] == Border()
    ensures level < ObstacleLevel ==> r.walls == Border() && r.placed == 0 && r.attempts == 0
    ensures r.placed <= Budget(level) && r.placed <= r.attempts <= MaxAttempts
    ensures level >= ObstacleLevel ==> r.placed == Budget(level) || r.attempts == MaxAttempts
    ensures forall i :: |Border()| <= i < |r.walls| ==> Obstacle(r.walls[i])
    ensures forall j, i :: 0 <= j < i && |Border()| <= i < |r.walls| ==> r.walls[j] != r.walls[i]
    ensures forall i :: |Border()| <= i < |r.walls| ==> exists k :: 0 <= k < r.attempts && r.walls[i] == PickCell(picks[k])
    ensures forall k :: 0 <= k < r.attempts && !Collide(SafeZone, CellRect(PickCell(picks[k]))) ==> PickCell(picks[k]) in r.walls
  {
    if level >= ObstacleLevel then
      ObstaclesFromDraws(Border(), picks, Budget(level), 0, 0);
      ClearDrawsBecomeWalls(Border(), picks, Budget(level), 0, 0);
      PlaceObstacles(Border(), picks, Budget(level), 0, 0)
    else WallGen(Border(), 0, 0)
  }

  /** Every border cell is a wall at every level. */
  lemma BorderAlwaysWalls(level: int, picks: seq<Pick>, c: Cell)
    requires level >= ObstacleLevel ==> |picks| >= MaxAttempts
    requires OnEdge(c)
    ensures c in GenerateWalls(level, picks).walls
  {
    var w := GenerateWalls(level, picks).walls;
    BorderCells(c);
    assert c in w[..|Border()|];
  }

  /** Every wall is a border cell or an obstacle, never both; below level 5 every wall is a border cell. */
  lemma WallIsBorderOrObstacle(level: int, picks: seq<Pick>, c: Cell)
    requires level >= ObstacleLevel ==> |picks| >= MaxAttempts
    requires c in GenerateWalls(level, picks).walls
    ensures OnEdge(c) || Obstacle(c)
    ensures level < ObstacleLevel ==> OnEdge(c)
    ensures OnEdge(c) <==> !Obstacle(c)
  {
    var w := GenerateWalls(level, picks).walls;
    BorderCells(c);
    if Obstacle(c) {
      InteriorIsNotEdge(c);
    }
    var i :| 0 <= i < |w| && w[i] == c;
    if i < |Border()| {
      assert c in w[..|Border()|];
    }
  }

  /** The obstacles are pairwise distinct and none of them lies on the border. */
  lemma ObstaclesDistinct(level: int, picks: seq<Pick>)
    requires level >= ObstacleLevel ==> |picks| >= MaxAttempts
    ensures var w := GenerateWalls(level, picks).walls;
      forall i, j :: 0 <= i < j < |w| && |Border()| <= j ==> w[i] != w[j]
  {
  }

  /** The two border loops of `generate_walls`: left and right cells row by row, then top and bottom cells column by column. */
  method BorderLoop() returns (walls: seq<Cell>)
    ensures walls == Border()
  {
    walls := [];
    var i := 0;
    while i < Rows
      invariant 0 <= i <= Rows
      invariant walls == SideWalls(i)
    {
      SideWallsSnoc(i);
      walls := walls + [Cell(0, i * CellSize), Cell(Width - CellSize, i * CellSize)];
      i := i + 1;
    }
    var side := walls;
    i := 0;
    while i < Cols
      invariant 0 <= i <= Cols
      invariant walls == side + TopBottomWalls(i)
    {
      TopBottomWallsSnoc(i);
      walls := walls + [Cell(i * CellSize, 0), Cell(i * CellSize, Height - CellSize)];
      i := i + 1;
    }
  }

  /**
   `generate_walls` as the source writes it: the border loops, then the rejection-sampling
   loop with its `placed` and `attempts` counters.
   */
  method GenerateWallsLoop(level: int, picks: seq<Pick>) returns (walls: seq<Cell>, placed: nat, attempts: nat)
    requires level >= ObstacleLevel ==> |picks| >= MaxAttempts
    ensures GenerateWalls(level, picks) == WallGen(walls, placed, attempts)
  {
    walls := BorderLoop();
    placed, attempts := 0, 0;
    if level >= ObstacleLevel {
      var budget := Budget(level);
      while placed < budget && attempts < MaxAttempts
        invariant placed <= budget && attempts <= MaxAttempts
        invariant PlaceObstacles(walls, picks, budget, placed, attempts) == PlaceObstacles(Border(), picks, budget, 0, 0)
        decreases MaxAttempts - attempts
      {
        var c := PickCell(picks[attempts]);
        if Accepts(walls, c) {
          walls := walls + [c];
          placed := placed + 1;
        }
        attempts := attempts + 1;
      }
    }
  }
}

=== FILE: wrappers.dfy ===
/** The optional-value datatype the generators return when their random draws run out. */
module Wrappers {

  datatype Option<+T> = None | Some(value: T)
}
